=== FILE: README.md ===
# stockfish-client in Dafny

A model of the output parser of `StockfishClient` (`src/index.ts`), the part
of the client that turns the text a UCI chess engine prints during a search
into the best evaluation known so far.

The client is fed one engine line at a time (`processOutput`). It answers the
game-over line `info depth 0 score mate 0` with `{gameOver: true}`; settles
its readiness flag on a line starting with `bestmove`; and matches every
other line against a fixed analysis-line grammar (`EVAL_REGEX`). A matched
line is dropped when it reports `mate 0`. Otherwise it raises the count of
expected principal variations, turns the score to a fixed point of view by
negating it, and drops a bound-only score of rank 1. What is left is either
a rank-1 line, which replaces the whole snapshot, or a line of another rank,
which adds its variation to an existing snapshot and lowers the snapshot's
depth to its own.

Modules:

- `Wrappers` (`wrappers.dfy`): `Option`, usable with `:-`.
- `JsText` (`jstext.dfy`): the JavaScript string behaviour the client relies
  on. This covers the character classes `\d`, `\s`/`\S` and `.`, greedy
  runs and literal words, `split(" ")` with its inverse `join`, and
  `parseInt` with no radix. `parseInt` skips white space, reads a sign and a
  `0x` prefix, then takes the longest digit prefix, giving NaN when there is
  none.
- `EvalLine` (`evalline.dfy`): the analysis-line grammar as a greedy scanner
  `ParseInfoLine`, its inverse `Format`, and the field extraction `Fields`.
- `Deferred` (`deferred.dfy`): the `state` field of `defer()`.
- `Client` (`client.dfy`): the client's state and `ProcessOutput` as a pure
  step `(client, line) -> (client', result)`, the snapshot invariant, and
  lemmas over whole sequences of lines.

The grammar is an ordinary scanner, not a regular-expression engine. In
`EVAL_REGEX` every repetition except the final `.+` (that is, `\d+`,
`[-\d]+` and `\S+`) is followed by a literal character its class excludes,
and every optional group starts with a word that cannot start whatever
follows it. The final `.+` ends the expression, which has no end anchor, so
the greedy match takes the whole run up to the first line terminator and
ignores whatever follows. So backtracking never changes where a field ends,
and taking each field greedily gives the same match. The grammar
is characterised both ways: `ParseInfoLine(s) == Some(l)` exactly when `l`
is well formed and `s` is `Format(l)` followed by nothing or by a line
break.

Numbers are JavaScript numbers as `parseInt` produces them: `Num = Int(int) |
NaN`. A centipawn score can be NaN (a score field such as `--5`). A mate
score cannot: `!povEv` drops NaN as well as 0.

## Model

| member | source | states |
|---|---|---|
| `Deferred.Defer` | src/index.ts:8-11 | a new deferred value is pending |
| `Deferred.Resolve` | src/index.ts:13-16 | resolving leaves the value settled and fulfilled, whatever its state was |
| `Deferred.Reject` | src/index.ts:17-20 | rejecting leaves the value settled and rejected, whatever its state was |
| `Deferred.SettleOverwrites` | src/index.ts:13-20 | settling again overwrites the state: resolving or rejecting twice is the same as once, and a later reject or resolve wins over an earlier one |
| `JsText.Run` | src/index.ts:46-50 | the greedy run length is the longest prefix of the class: all characters before it belong, the next one does not |
| `JsText.Token` | src/index.ts:46-50 | `X+` fails exactly when the first character is not in the class; otherwise it splits off a non-empty maximal token |
| `JsText.Lit` | src/index.ts:46-50 | a literal word matches exactly when it is a prefix, and the rest is what follows it |
| `JsText.Split` | src/index.ts:94 | `split(" ")` yields at least one piece, no piece contains the separator, and joining the pieces gives back the text |
| `JsText.SplitJoin` | src/index.ts:94 | splitting the join of separator-free pieces gives back the pieces |
| `JsText.ParseIntNoDigit` | src/index.ts:87-93 | `parseInt` with no radix (`JsText.ParseInt`) reads a text with no decimal digit at all as NaN, whatever its signs, spaces or `0x`. The white-space, sign, digit-prefix and `0x` steps are stated by the lemmas in the next rows |
| `JsText.ParseIntOfDigitPrefix` | src/index.ts:87-93 | `parseInt` reads the longest decimal digit prefix and ignores what follows it (`100ms` reads as 100), unless the text starts with a `0x` prefix |
| `JsText.ParseIntOfNegativeDigitPrefix` | src/index.ts:90 | after a `-` at the very start, the longest decimal digit prefix is read negated and the rest ignored (`-3-` reads as -3) |
| `JsText.ParseIntOfHex` | src/index.ts:87-93 | after a `0x` or `0X` prefix, `parseInt` reads the longest hexadecimal digit prefix in radix 16 (`0x1f` reads as 31) |
| `JsText.ParseIntSkipsWhitespace` | src/index.ts:87-93 | leading white space never changes what `parseInt` reads |
| `JsText.ParseIntSign` | src/index.ts:87-93 | a leading `-` reads as the negation of the same text with `+`, NaN staying NaN |
| `JsText.ParseIntOfDigits` | src/index.ts:87-92 | `parseInt` of a run of decimal digits is its decimal value |
| `JsText.ParseIntOfIntString` | src/index.ts:90 | `parseInt` reads back every integer written in decimal, negative ones included |
| `JsText.NatString` | src/index.ts:87-92 | the decimal spelling of n is a non-empty run of digits whose value is n, with no leading zero |
| `EvalLine.ParseKind` | src/index.ts:47 | the score kind consumes exactly the spelling of the kind it returns |
| `EvalLine.ParseBound` | src/index.ts:48 | the optional bound group consumes `upperbound `/`lowerbound ` or nothing |
| `EvalLine.ParseOptional` | src/index.ts:49 | an optional `hashfull D `/`tbhits D ` group is taken whole or not at all |
| `EvalLine.ParseSearch` | src/index.ts:46 | the depth, seldepth and multipv fields are digit runs and the text is exactly those fields in grammar order |
| `EvalLine.ParseScore` | src/index.ts:47-48 | the score field is a run of `-` and digits, with kind and optional bound, in grammar order |
| `EvalLine.ParseCounters` | src/index.ts:48-49 | nodes is a digit run, nps a non-space word, and the optional groups do not shift the fields after them |
| `EvalLine.ParseTiming` | src/index.ts:49-50 | time is a non-space word and the moves run to the first line terminator |
| `EvalLine.ParseInfoLine` | src/index.ts:44-51 | a match yields well-formed fields whose formatted line is a prefix of the input, ended by nothing or a line break |
| `EvalLine.ParseFormat` | src/index.ts:44-51 | every well-formed line, followed by nothing or a line break, is matched with exactly its own fields |
| `EvalLine.ParseInfoLineExactly` | src/index.ts:44-51 | a line matches with fields l if and only if l is well formed and the line is `Format(l)` up to a line break |
| `EvalLine.FormatThenTail` | src/index.ts:44-51 | the formatter composes with whatever follows the line |
| `EvalLine.NonInfoLine` | src/index.ts:46 | a line not starting with `info depth ` never matches |
| `EvalLine.NumeralValue` | src/index.ts:87-92 | `parseInt` of a `\d+` field is a natural number |
| `EvalLine.Fields` | src/index.ts:87-94 | depth, multipv and nodes are what `parseInt` reads; there is at least one move, no move contains a space, and the moves join back to the pv text |
| `EvalLine.ScoreIsNaN` | src/index.ts:90 | a score field reads as NaN exactly when it starts neither with a digit nor with `-` and a digit |
| `Client.NewClient` | src/index.ts:58-62 | a new client has no snapshot, keeps the given rank count and is not searching |
| `Client.IsSearching` | src/index.ts:64-66 | the client is searching exactly when its readiness flag is neither fulfilled nor rejected |
| `Client.PvOf` | src/index.ts:103-116 | a variation holds exactly one of cp and mate, the engine's score negated, with the line's moves and depth |
| `Client.Accept` | src/index.ts:96-135 | after a match, a returned value is always the current snapshot, the rank count never drops and readiness is untouched; its rank-1 branch builds a new snapshot (`Client.PrimaryEval`, src/index.ts:119-127) and its other branch adds a variation (`Client.AddVariation`, src/index.ts:128-131) |
| `Client.ProcessOutput` | src/index.ts:73-136 | game-over is returned exactly for the game-over line; a returned snapshot is the client's current one; the rank count never drops; only a `bestmove` line changes readiness, and it leaves the client idle; the snapshot invariant is kept |
| `Client.AcceptKeepsValid` | src/index.ts:111-131 | an accepted line keeps the snapshot invariant |
| `Client.MinDepthAppend` | src/index.ts:130 | adding a variation makes the smallest depth the minimum of the old one and the new variation's |
| `Client.GameOverLineKeepsState` | src/index.ts:76-78 | the game-over line returns game-over and changes nothing, whatever the state |
| `Client.GameOverLineUnmatched` | src/index.ts:76-85 | the game-over line is not an analysis line |
| `Client.MatchedLineIsAnalysis` | src/index.ts:76-84 | a matched line is neither the game-over line nor a `bestmove` line |
| `Client.AnalysisLine` | src/index.ts:76-85 | every well-formed analysis line, ended by nothing or a line break, matches with its own fields and is neither special line |
| `Client.AnalysisStep` | src/index.ts:84-135 | on a well-formed analysis line, `processOutput` does exactly what `Client.Accept` does with the line's fields |
| `Client.UnmatchedLineKeepsEval` | src/index.ts:84-85 | an unmatched line returns nothing and keeps the snapshot and the rank count |
| `Client.CompletionLineSettles` | src/index.ts:80-85 | a `bestmove` line returns nothing and changes only readiness, to fulfilled |
| `Client.MateZeroDropped` | src/index.ts:96-97 | a matched `mate 0` line (or a mate score that is not a number) returns nothing and changes nothing |
| `Client.ExpectedPvsTracksRank` | src/index.ts:99-100 | any other matched line sets the rank count to the maximum of its old value and the line's rank |
| `Client.PrimaryBoundDropped` | src/index.ts:105-109 | a rank-1 line with an upper or lower bound returns nothing and keeps the snapshot |
| `Client.PrimaryReplaces` | src/index.ts:111-127 | an accepted rank-1 line replaces the snapshot with the line's depth, nodes and time, its single variation, and the negated score of its kind only, and returns it |
| `Client.SecondaryAppends` | src/index.ts:128-135 | an accepted line of any other rank appends its variation, lowers the depth to the minimum and returns the snapshot; with no snapshot it returns nothing and creates none |
| `Client.ProcessAllSnoc` | src/index.ts:73-136 | feeding one more line is one more `processOutput` step after the earlier lines |
| `Client.StaysIdle` | src/index.ts:80-82 | no sequence of lines makes an idle client search |
| `Client.NeverSearching` | src/index.ts:58-66 | `isSearching()` is false after any sequence of lines fed to a new client |
| `Client.ValidThroughout` | src/index.ts:99-131 | the snapshot invariant holds and the rank count never drops along any sequence of lines |
| `Client.ProcessLines` | src/index.ts:73-136 | feeding lines in order ends in the client `Client.ProcessAll` gives, with one result per line, game-over exactly for game-over lines, only valid snapshots, and an idle client |
| `Client.TwoRankExample` | src/index.ts:103-135 | a rank-1 line with cp 23 gives cp -23 and one variation; a rank-2 line at the same depth adds a second variation and keeps the depth |

The snapshot invariant (`Client.ValidEval`) says that the snapshot has at
least one variation, and that the first variation's cp and mate are the
top-level ones. It also says that every variation carries exactly one kind
of score, and that the depth is the smallest depth among the variations.

The lemmas about matched lines (`Client.MateZeroDropped` through
`Client.SecondaryAppends`) are stated for the line `Format(l)` followed by
nothing or a line break. By `EvalLine.ParseInfoLineExactly` these are
exactly the lines the grammar matches.

Behaviour of the code worth knowing:

- Nothing ever sets the readiness flag back to pending. The constructor
  resolves it at once, so `isSearching()` is always false.
- `resolve` and `reject` overwrite `state` unconditionally, even after the
  value is settled.
- A line of rank 0 is treated like one of rank 2 or more.
- The depth of an existing snapshot is lowered even when its variation list
  is empty. That state cannot occur, by the invariant.
- The moves are split on single spaces, so consecutive spaces give empty
  moves.
- A score field that `parseInt` cannot read becomes NaN; it is not reported
  as an error.

## Left out

- `knps = nodes / elapsedMs` is left out. It is floating-point division and
  gives Infinity or NaN when the time is 0.
- The `cloud` and `retried` fields are left out because the client never sets them.
- The promise inside `defer()`, and whoever awaits it, are left out. Only
  the synchronous `state` field is modelled.
- The `MessageEvent` wrapper is left out: a line is a plain string.
- Object identity is left out. The client returns its own mutable snapshot
  object, so a later append is visible through an earlier result. The model
  returns a value copy.
- Number precision is left out. `parseInt` results above 2^53 lose
  precision in JavaScript. `-0` is not told apart from `0`:
  `parseInt("-0")` is `-0` in JavaScript and 0 here. After the negation,
  a `cp 0` line stores `-0` in JavaScript and 0 here, while a `cp -0` line
  stores 0 in both. All integers here are exact.
- The constructor's `expectedPvs` argument is taken to be an integer. A NaN
  or fractional value, which JavaScript would accept, is not modelled.
- The JavaScript runs its regular expression on UTF-16 code units. Dafny
  strings here are Unicode scalar values. The character classes used (`\d`,
  `\s`, line terminators) contain no surrogates, so no match changes.
- `Client.TwoRankExample`: stated after field extraction, on the values
  yielded by two example lines, `info depth 10 ... multipv 1 score cp 23 ...`
  and `info depth 10 ... multipv 2 score cp -5 ...`. Evaluating the scanner on the literal lines is
  beyond what the verifier unfolds in reasonable time. The text-level link
  is `EvalLine.ParseFormat` with `EvalLine.Fields`.
- `Client.PrimaryReplaces`: says nothing about `knps`, which the model does
  not carry.
- `dist/index.js` is a compiled copy of the same logic and
  `dist/index.d.ts` declares types only; both are left out.

=== FILE: client.dfy ===
/**
 * `StockfishClient`: folds engine output lines, one at a time, into the
 * best evaluation known so far.
 */
module Client {
  import opened Wrappers
  import opened JsText
  import opened EvalLine
  import opened Deferred

  /** One principal variation, tagged with the depth of the line that reported it. */
  datatype PvData = PvData(moves: seq<string>, cp: Option<Num>, mate: Option<int>, depth: nat)

  /** The evaluation snapshot (`knps`, `cloud` and `retried` are not modelled). */
  datatype ClientEval = ClientEval(
    depth: nat,
    nodes: nat,
    millis: Num,
    pvs: seq<PvData>,
    cp: Option<Num>,
    mate: Option<int>)

  /** What `processOutput` returns when it returns something. */
  datatype Output = GameOver | Snapshot(eval: ClientEval)

  /** The client's fields. */
  datatype Client = Client(curEval: Option<ClientEval>, expectedPvs: int, ready: DeferredState)

  /** The line an engine prints when asked to search a finished game. */
  const GameOverLine: string := "info depth 0 score mate 0"

  /** The word that starts the line ending a search. */
  const CompletionWord: string := "bestmove"

  function Min(a: nat, b: nat): nat {
    if a <= b then a else b
  }

  function Max(a: int, b: int): int {
    if a < b then b else a
  }

  /** The constructor: the readiness flag is created and resolved at once. */
  function NewClient(expectedPvs: int): (c: Client)
    ensures c.curEval.None? && c.expectedPvs == expectedPvs
    ensures !IsSearching(c)
  {
    Client(None, expectedPvs, Resolve(Defer()))
  }

  /** `isSearching()`: the client searches while its readiness flag is unsettled. */
  predicate IsSearching(c: Client)
    ensures IsSearching(c) <==> c.ready != Fulfilled && c.ready != Rejected
  {
    IsPending(c.ready)
  }

  /** JavaScript's `!x` on a number read by `parseInt`: true for 0 and NaN. */
  predicate Falsy(x: Num) {
    x.NaN? || x.value == 0
  }

  /** A score field is either centipawns or a mate distance, never both. */
  predicate OneScore(cp: Option<Num>, mate: Option<int>) {
    cp.Some? != mate.Some?
  }

  /** The smallest depth among the variations. */
  function MinDepth(pvs: seq<PvData>): nat
    requires |pvs| > 0
  {
    if |pvs| == 1 then pvs[0].depth else Min(pvs[0].depth, MinDepth(pvs[1..]))
  }

  /**
   * What holds of the snapshot between calls: it has a first variation whose
   * score is mirrored at top level, every variation carries one kind of
   * score, and its depth is the smallest of its variations' depths.
   */
  predicate ValidEval(e: ClientEval) {
    && |e.pvs| > 0
    && e.pvs[0].cp == e.cp && e.pvs[0].mate == e.mate
    && (forall i :: 0 <= i < |e.pvs| ==> OneScore(e.pvs[i].cp, e.pvs[i].mate))
    && e.depth == MinDepth(e.pvs)
  }

  predicate Valid(c: Client) {
    c.curEval.Some? ==> ValidEval(c.curEval.value)
  }

  /** The variation a line reports, with the score turned to the fixed point of view. */
  function PvOf(f: Info): (pv: PvData)
    requires f.kind == Mate ==> !Falsy(f.povEv)
    ensures OneScore(pv.cp, pv.mate)
    ensures pv.moves == f.moves && pv.depth == f.depth
    ensures f.kind == Cp ==> pv.cp == Some(Negate(f.povEv))
    ensures f.kind == Mate ==> pv.mate == Some(-f.povEv.value)
  {
    var ev := Negate(f.povEv);
    if f.kind == Mate then PvData(f.moves, None, Some(ev.value), f.depth)
    else PvData(f.moves, Some(ev), None, f.depth)
  }

  /** The snapshot a primary (multipv 1) line builds from nothing. */
  function PrimaryEval(f: Info, pv: PvData): ClientEval {
    ClientEval(f.depth, f.nodes, f.elapsedMs, [pv], pv.cp, pv.mate)
  }

  /** A secondary line joins the snapshot: its variation is added and the depth lowered. */
  function AddVariation(e: ClientEval, pv: PvData): ClientEval {
    e.(pvs := if |e.pvs| > 0 then e.pvs + [pv] else e.pvs, depth := Min(e.depth, pv.depth))
  }

  /** The part of `processOutput` after a line has matched the grammar. */
  function Accept(c: Client, f: Info): (r: (Client, Option<Output>))
    ensures r.1.Some? ==> r.1.value.Snapshot? && r.0.curEval == Some(r.1.value.eval)
    ensures r.0.expectedPvs >= c.expectedPvs && r.0.ready == c.ready
  {
    if f.kind == Mate && Falsy(f.povEv) then (c, None)
    else
      var c := c.(expectedPvs := Max(c.expectedPvs, f.multiPv));
      if f.bound.Some? && f.multiPv == 1 then (c, None)
      else
        var pv := PvOf(f);
        var c := if f.multiPv == 1 then c.(curEval := Some(PrimaryEval(f, pv)))
                 else if c.curEval.Some? then c.(curEval := Some(AddVariation(c.curEval.value, pv)))
                 else c;
        (c, if c.curEval.Some? then Some(Snapshot(c.curEval.value)) else None)
  }

  /** `processOutput`: the client after one line, and what the call returns. */
  function ProcessOutput(c: Client, text: string): (r: (Client, Option<Output>))
    ensures r.1 == Some(GameOver) <==> text == GameOverLine
    ensures r.1.Some? && r.1.value.Snapshot? ==> r.0.curEval == Some(r.1.value.eval)
    ensures r.0.expectedPvs >= c.expectedPvs
    ensures !(CompletionWord <= text) ==> r.0.ready == c.ready
    ensures CompletionWord <= text ==> !IsSearching(r.0)
    ensures !IsSearching(c) ==> !IsSearching(r.0)
    ensures Valid(c) ==> Valid(r.0)
  {
    if text == GameOverLine then
      NotPrefix(CompletionWord, text, 0);
      (c, Some(GameOver))
    else
      var c := if CompletionWord <= text then c.(ready := Resolve(c.ready)) else c;
      match ParseInfoLine(text)
      case None => (c, None)
      case Some(l) =>
        var f := Fields(l);
        AcceptKeepsValid(c, f);
        Accept(c, f)
  }

  lemma {:induction false} MinDepthAppend(pvs: seq<PvData>, pv: PvData)
    requires |pvs| > 0
    ensures MinDepth(pvs + [pv]) == Min(MinDepth(pvs), pv.depth)
    decreases |pvs|
  {
    if |pvs| > 1 {
      assert (pvs + [pv])[1..] == pvs[1..] + [pv];
      MinDepthAppend(pvs[1..], pv);
    }
  }

  lemma AcceptKeepsValid(c: Client, f: Info)
    ensures Valid(c) ==> Valid(Accept(c, f).0)
  {
    if Valid(c) && !(f.kind == Mate && Falsy(f.povEv)) && !(f.bound.Some? && f.multiPv == 1)
       && f.multiPv != 1 && c.curEval.Some? {
      var e := c.curEval.value;
      var pv := PvOf(f);
      MinDepthAppend(e.pvs, pv);
      var e' := AddVariation(e, pv);
      assert e'.pvs[0] == e.pvs[0];
      assert forall i :: 0 <= i < |e'.pvs| ==> OneScore(e'.pvs[i].cp, e'.pvs[i].mate) by {
        forall i | 0 <= i < |e'.pvs|
          ensures OneScore(e'.pvs[i].cp, e'.pvs[i].mate)
        {
          if i < |e.pvs| {
            assert e'.pvs[i] == e.pvs[i];
          }
        }
      }
    }
  }

  /** The game-over line is answered at once and touches nothing. */
  lemma GameOverLineKeepsState(c: Client)
    ensures ProcessOutput(c, GameOverLine) == (c, Some(GameOver))
  {
  }

  /** The game-over line is not an analysis line: it lacks the `seldepth` field. */
  lemma GameOverLineUnmatched()
    ensures ParseInfoLine(GameOverLine) == None
  {
    LitOfConcat("info depth ", "0 score mate 0");
    TokenOfConcat("0", " score mate 0", IsDigit);
    NotPrefix(" seldepth ", " score mate 0", 2);
  }

  /** A line the grammar matches starts with `info depth `, so it is neither special line. */
  lemma MatchedLineIsAnalysis(text: string)
    ensures ParseInfoLine(text).Some? ==> text != GameOverLine && !(CompletionWord <= text)
  {
    GameOverLineUnmatched();
    if ParseInfoLine(text).Some? {
      var l := ParseInfoLine(text).value;
      assert Format(l)[0] == 'i';
      NotPrefix(CompletionWord, text, 0);
    }
  }

  /**
   * The analysis line with fields `l`, ended by nothing or a line break,
   * matches with those fields. Every matching line has this form
   * (`ParseInfoLineExactly`), so the lemmas below cover all of them.
   */
  lemma AnalysisLine(l: InfoLine, tail: string)
    requires WellFormed(l) && LineEnd(tail)
    ensures ParseInfoLine(Format(l) + tail) == Some(l)
    ensures Format(l) + tail != GameOverLine && !(CompletionWord <= Format(l) + tail)
  {
    ParseFormat(l, tail);
    MatchedLineIsAnalysis(Format(l) + tail);
  }

  /** On an analysis line, `processOutput` is `Accept` of the line's fields. */
  lemma AnalysisStep(c: Client, l: InfoLine, tail: string)
    requires WellFormed(l) && LineEnd(tail)
    ensures ProcessOutput(c, Format(l) + tail) == Accept(c, Fields(l))
  {
    AnalysisLine(l, tail);
  }

  /** An unmatched line returns nothing and leaves the snapshot and the rank count alone. */
  lemma UnmatchedLineKeepsEval(c: Client, text: string)
    requires text != GameOverLine && ParseInfoLine(text).None?
    ensures ProcessOutput(c, text).1.None?
    ensures ProcessOutput(c, text).0.curEval == c.curEval
    ensures ProcessOutput(c, text).0.expectedPvs == c.expectedPvs
  {
  }

  /** A completion line only settles the readiness flag. */
  lemma CompletionLineSettles(c: Client, text: string)
    requires CompletionWord <= text
    ensures ProcessOutput(c, text) == (c.(ready := Fulfilled), None)
  {
    NotPrefix(CompletionWord, GameOverLine, 0);
    NotPrefix("info depth ", text, 0);
    NonInfoLine(text);
  }

  /** A `mate 0` analysis line (or one whose mate score is not a number) is dropped whole. */
  lemma MateZeroDropped(c: Client, l: InfoLine, tail: string)
    requires WellFormed(l) && LineEnd(tail)
    requires l.kind == Mate && Falsy(ParseInt(l.score))
    ensures ProcessOutput(c, Format(l) + tail) == (c, None)
  {
    AnalysisStep(c, l, tail);
  }

  /** Any other analysis line raises the rank count to the line's rank. */
  lemma ExpectedPvsTracksRank(c: Client, l: InfoLine, tail: string)
    requires WellFormed(l) && LineEnd(tail)
    requires !(l.kind == Mate && Falsy(ParseInt(l.score)))
    ensures ProcessOutput(c, Format(l) + tail).0.expectedPvs == Max(c.expectedPvs, Fields(l).multiPv)
  {
    AnalysisStep(c, l, tail);
  }

  /** A bound-only line of rank 1 returns nothing and keeps the snapshot. */
  lemma PrimaryBoundDropped(c: Client, l: InfoLine, tail: string)
    requires WellFormed(l) && LineEnd(tail)
    requires l.bound.Some? && Fields(l).multiPv == 1
    ensures ProcessOutput(c, Format(l) + tail).1.None?
    ensures ProcessOutput(c, Format(l) + tail).0.curEval == c.curEval
  {
    AnalysisStep(c, l, tail);
  }

  /**
   * An accepted rank-1 line replaces the snapshot with one built from the
   * line alone, holding its single variation, and returns it. The score is
   * the engine's, negated.
   */
  lemma PrimaryReplaces(c: Client, l: InfoLine, tail: string)
    requires WellFormed(l) && LineEnd(tail)
    requires Fields(l).multiPv == 1 && l.bound.None?
    requires !(l.kind == Mate && Falsy(ParseInt(l.score)))
    ensures var r := ProcessOutput(c, Format(l) + tail);
            && r.0.curEval.Some? && r.1 == Some(Snapshot(r.0.curEval.value))
            && var e := r.0.curEval.value;
            && ParseInt(l.depth) == Int(e.depth) && ParseInt(l.nodes) == Int(e.nodes)
            && e.millis == ParseInt(l.time)
            && e.pvs == [PvData(Split(l.pv, ' '), e.cp, e.mate, e.depth)]
            && (l.kind == Cp ==> e.cp == Some(Negate(ParseInt(l.score))) && e.mate.None?)
            && (l.kind == Mate ==> e.mate == Some(-ParseInt(l.score).value) && e.cp.None?)
  {
    AnalysisStep(c, l, tail);
  }

  /**
   * An accepted line of any other rank (rank 0 included) adds its variation
   * to an existing snapshot and lowers its depth to the line's, returning the
   * snapshot; with no snapshot yet it returns nothing and creates none.
   */
  lemma SecondaryAppends(c: Client, l: InfoLine, tail: string)
    requires WellFormed(l) && LineEnd(tail)
    requires Fields(l).multiPv != 1
    requires !(l.kind == Mate && Falsy(ParseInt(l.score)))
    ensures var r := ProcessOutput(c, Format(l) + tail);
            c.curEval.None? ==> r.1.None? && r.0.curEval.None?
    ensures c.curEval.Some? && |c.curEval.value.pvs| > 0 ==>
            var e := c.curEval.value;
            var pv := PvOf(Fields(l));
            var e' := e.(pvs := e.pvs + [pv], depth := Min(e.depth, Fields(l).depth));
            ProcessOutput(c, Format(l) + tail) ==
              (c.(curEval := Some(e'), expectedPvs := Max(c.expectedPvs, Fields(l).multiPv)), Some(Snapshot(e')))
  {
    AnalysisStep(c, l, tail);
  }

  /** The client after a sequence of lines. */
  function ProcessAll(c: Client, lines: seq<string>): Client
    decreases |lines|
  {
    if |lines| == 0 then c else ProcessAll(ProcessOutput(c, lines[0]).0, lines[1..])
  }

  /** Feeding one more line is one more step after the earlier ones. */
  lemma {:induction false} ProcessAllSnoc(c: Client, lines: seq<string>, line: string)
    ensures ProcessAll(c, lines + [line]) == ProcessOutput(ProcessAll(c, lines), line).0
    decreases |lines|
  {
    if |lines| == 0 {
      assert lines + [line] == [line];
      assert [line][1..] == [];
    } else {
      assert (lines + [line])[0] == lines[0];
      assert (lines + [line])[1..] == lines[1..] + [line];
      ProcessAllSnoc(ProcessOutput(c, lines[0]).0, lines[1..], line);
    }
  }

  /** No line ever makes an idle client search. */
  lemma {:induction false} StaysIdle(c: Client, lines: seq<string>)
    requires !IsSearching(c)
    ensures !IsSearching(ProcessAll(c, lines))
    decreases |lines|
  {
    if |lines| > 0 {
      StaysIdle(ProcessOutput(c, lines[0]).0, lines[1..]);
    }
  }

  /** `isSearching()` is false after any sequence of `processOutput` calls. */
  lemma NeverSearching(expectedPvs: int, lines: seq<string>)
    ensures !IsSearching(ProcessAll(NewClient(expectedPvs), lines))
  {
    StaysIdle(NewClient(expectedPvs), lines);
  }

  /** Every line keeps the snapshot invariant and never lowers the rank count. */
  lemma {:induction false} ValidThroughout(c: Client, lines: seq<string>)
    requires Valid(c)
    ensures Valid(ProcessAll(c, lines))
    ensures ProcessAll(c, lines).expectedPvs >= c.expectedPvs
    decreases |lines|
  {
    if |lines| > 0 {
      ValidThroughout(ProcessOutput(c, lines[0]).0, lines[1..]);
    }
  }

  /**
   * Feeds the lines to a new client in order, collecting what each call
   * returns.
   */
  method ProcessLines(expectedPvs: int, lines: seq<string>) returns (c: Client, outputs: seq<Option<Output>>)
    ensures |outputs| == |lines|
    ensures c == ProcessAll(NewClient(expectedPvs), lines)
    ensures Valid(c) && !IsSearching(c) && c.expectedPvs >= expectedPvs
    ensures forall i :: 0 <= i < |lines| ==> (outputs[i] == Some(GameOver) <==> lines[i] == GameOverLine)
    ensures forall i :: 0 <= i < |outputs| && outputs[i].Some? && outputs[i].value.Snapshot? ==>
              ValidEval(outputs[i].value.eval)
  {
    c := NewClient(expectedPvs);
    outputs := [];
    for k := 0 to |lines|
      invariant |outputs| == k
      invariant c == ProcessAll(NewClient(expectedPvs), lines[..k])
      invariant Valid(c) && !IsSearching(c) && c.expectedPvs >= expectedPvs
      invariant forall i :: 0 <= i < k ==> (outputs[i] == Some(GameOver) <==> lines[i] == GameOverLine)
      invariant forall i :: 0 <= i < k && outputs[i].Some? && outputs[i].value.Snapshot? ==>
                  ValidEval(outputs[i].value.eval)
    {
      ProcessAllSnoc(NewClient(expectedPvs), lines[..k], lines[k]);
      assert lines[..k + 1] == lines[..k] + [lines[k]];
      var r := ProcessOutput(c, lines[k]);
      c := r.0;
      outputs := outputs + [r.1];
    }
    assert lines[..|lines|] == lines;
  }

  /**
   * An example, stated after field extraction: the line `info depth 10
   * seldepth 12 multipv 1 score cp 23 nodes 50000 nps 500000 time 100 pv e2e4
   * e7e5` on a fresh client, then `info depth 10 seldepth 12 multipv 2 score
   * cp -5 nodes 48000 nps 480000 time 95 pv d2d4 d7d5`.
   */
  lemma TwoRankExample()
    ensures var r1 := Accept(NewClient(1), Info(10, 1, Cp, Int(23), None, 50000, Int(100), ["e2e4", "e7e5"]));
            var pv1 := PvData(["e2e4", "e7e5"], Some(Int(-23)), None, 10);
            var e1 := ClientEval(10, 50000, Int(100), [pv1], Some(Int(-23)), None);
            var r2 := Accept(r1.0, Info(10, 2, Cp, Int(-5), None, 48000, Int(95), ["d2d4", "d7d5"]));
            var pv2 := PvData(["d2d4", "d7d5"], Some(Int(5)), None, 10);
            && r1.1 == Some(Snapshot(e1))
            && r2.1 == Some(Snapshot(e1.(pvs := [pv1, pv2])))
            && r2.0.expectedPvs == 2
  {
    var pv1 := PvData(["e2e4", "e7e5"], Some(Int(-23)), None, 10);
    var pv2 := PvData(["d2d4", "d7d5"], Some(Int(5)), None, 10);
    assert [pv1] + [pv2] == [pv1, pv2];
  }
}

=== FILE: deferred.dfy ===
/**
 * The synchronous part of the client's deferred value: its `state` field.
 * The promise it wraps, and whoever awaits it, are not modelled.
 */
module Deferred {

  datatype DeferredState = Pending | Fulfilled | Rejected

  predicate IsPending(d: DeferredState) {
    d.Pending?
  }

  /** `defer()`: a fresh deferred value has not been settled. */
  function Defer(): (d: DeferredState)
    ensures IsPending(d)
  {
    Pending
  }

  /** `resolve`: marks the value fulfilled whatever its state was, even after a rejection. */
  function Resolve(d: DeferredState): (r: DeferredState)
    ensures !IsPending(r) && r != Rejected
  {
    Fulfilled
  }

  /** `reject`: marks the value rejected whatever its state was, even after fulfilment. */
  function Reject(d: DeferredState): (r: DeferredState)
    ensures !IsPending(r) && r != Fulfilled
  {
    Rejected
  }

  /** Settling twice is the same as settling once with the second call. */
  lemma SettleOverwrites(d: DeferredState)
    ensures Resolve(Resolve(d)) == Resolve(d)
    ensures Resolve(Reject(d)) == Resolve(d)
    ensures Reject(Resolve(d)) == Reject(d)
    ensures Reject(Reject(d)) == Reject(d)
  {
  }
}

=== FILE: evalline.dfy ===
/**
 * The analysis-line grammar of the client (`EVAL_REGEX`):
 *
 *   info depth D seldepth D multipv D score (cp|mate) S [(upper|lower)bound ]
 *   nodes D nps W [hashfull D ][tbhits D ]time W pv P
 *
 * with single spaces between fields, D a run of decimal digits, S a run of
 * `-` and digits, W a run of non-white-space characters and P the rest of
 * the line up to the first line terminator. The expression is anchored at
 * the start only.
 *
 * Every repetition except the final one is followed by a literal character
 * its class excludes; the final repetition P ends the expression, which has
 * no end anchor, so the greedy match takes the whole run up to the first
 * line terminator. Backtracking therefore never changes where a field ends:
 * the expression is modelled by a scanner that takes each field greedily.
 */
module EvalLine {
  import opened Wrappers
  import opened JsText

  datatype ScoreKind = Cp | Mate

  datatype BoundKind = Upper | Lower

  /** The text of every field the grammar reads, including the ones it skips over. */
  datatype InfoLine = InfoLine(
    depth: string,
    seldepth: string,
    multipv: string,
    kind: ScoreKind,
    score: string,
    bound: Option<BoundKind>,
    nodes: string,
    nps: string,
    hashfull: Option<string>,
    tbhits: Option<string>,
    time: string,
    pv: string)

  /** The character class `[-\d]` of the score field. */
  predicate IsScoreChar(c: char) {
    c == '-' || IsDigit(c)
  }

  /** `\S` */
  predicate IsNonSpace(c: char) {
    !IsWhitespace(c)
  }

  /** `.` */
  predicate InLine(c: char) {
    !IsLineTerminator(c)
  }

  /** A match of `\d+`. */
  predicate IsNumeral(s: string) {
    |s| > 0 && All(s, IsDigit)
  }

  /** A match of `\S+`. */
  predicate IsWord(s: string) {
    |s| > 0 && All(s, IsNonSpace)
  }

  /** What may follow the `pv` field: nothing, or a line break. */
  predicate LineEnd(t: string) {
    t == [] || IsLineTerminator(t[0])
  }

  /** The field texts the grammar can capture. */
  predicate WellFormed(l: InfoLine) {
    && IsNumeral(l.depth)
    && IsNumeral(l.seldepth)
    && IsNumeral(l.multipv)
    && |l.score| > 0 && All(l.score, IsScoreChar)
    && IsNumeral(l.nodes)
    && IsWord(l.nps)
    && (l.hashfull.Some? ==> IsNumeral(l.hashfull.value))
    && (l.tbhits.Some? ==> IsNumeral(l.tbhits.value))
    && IsWord(l.time)
    && |l.pv| > 0 && All(l.pv, InLine)
  }

  function KindText(k: ScoreKind): string {
    match k
    case Cp => "cp"
    case Mate => "mate"
  }

  function BoundText(b: Option<BoundKind>): string {
    match b
    case None => ""
    case Some(Upper) => "upperbound "
    case Some(Lower) => "lowerbound "
  }

  /** An optional `name D ` group, or nothing. */
  function OptionalText(name: string, v: Option<string>): string {
    match v
    case None => ""
    case Some(d) => name + (d + " ")
  }

  /** `info depth D seldepth D multipv D ` followed by `x`. */
  function SearchText(depth: string, seldepth: string, multipv: string, x: string): string {
    "info depth " + (depth + (" seldepth " + (seldepth + (" multipv " + (multipv + (" " + x))))))
  }

  /** `score K S [B]` followed by `x`. */
  function ScoreText(kind: ScoreKind, score: string, bound: Option<BoundKind>, x: string): string {
    "score " + (KindText(kind) + (" " + (score + (" " + (BoundText(bound) + x)))))
  }

  /** `nodes D nps W [hashfull D ][tbhits D ]` followed by `x`. */
  function CountersText(nodes: string, nps: string, hashfull: Option<string>, tbhits: Option<string>,
                        x: string): string {
    "nodes " + (nodes + (" nps " + (nps + (" " +
    (OptionalText("hashfull ", hashfull) + (OptionalText("tbhits ", tbhits) + x))))))
  }

  /** `time W pv P` followed by `x`. */
  function TimingText(time: string, pv: string, x: string): string {
    "time " + (time + (" pv " + (pv + x)))
  }

  /** The line with these fields, followed by `tail`. */
  function FormatOnto(l: InfoLine, tail: string): string {
    SearchText(l.depth, l.seldepth, l.multipv,
      ScoreText(l.kind, l.score, l.bound,
        CountersText(l.nodes, l.nps, l.hashfull, l.tbhits,
          TimingText(l.time, l.pv, tail))))
  }

  /** The line with these fields. */
  function Format(l: InfoLine): string {
    FormatOnto(l, "")
  }

  lemma FormatThenTail(l: InfoLine, tail: string)
    ensures FormatOnto(l, tail) == Format(l) + tail
  {
    var timing := TimingText(l.time, l.pv, "");
    var counters := CountersText(l.nodes, l.nps, l.hashfull, l.tbhits, timing);
    var score := ScoreText(l.kind, l.score, l.bound, counters);
    TimingThenTail(l.time, l.pv, tail);
    CountersThenTail(l.nodes, l.nps, l.hashfull, l.tbhits, timing, tail);
    ScoreThenTail(l.kind, l.score, l.bound, counters, tail);
    SearchThenTail(l.depth, l.seldepth, l.multipv, score, tail);
  }

  lemma TimingThenTail(time: string, pv: string, tail: string)
    ensures TimingText(time, pv, tail) == TimingText(time, pv, "") + tail
  {
    assert pv + "" == pv;
  }

  lemma SearchThenTail(depth: string, seldepth: string, multipv: string, x: string, tail: string)
    ensures SearchText(depth, seldepth, multipv, x + tail) == SearchText(depth, seldepth, multipv, x) + tail
  {
    var m := multipv + (" " + x);
    assert m + tail == multipv + (" " + (x + tail));
    var sd := seldepth + (" multipv " + m);
    assert sd + tail == seldepth + (" multipv " + (m + tail));
  }

  lemma ScoreThenTail(kind: ScoreKind, score: string, bound: Option<BoundKind>, x: string, tail: string)
    ensures ScoreText(kind, score, bound, x + tail) == ScoreText(kind, score, bound, x) + tail
  {
    var b := BoundText(bound) + x;
    assert b + tail == BoundText(bound) + (x + tail);
    var sc := score + (" " + b);
    assert sc + tail == score + (" " + (b + tail));
  }

  lemma CountersThenTail(nodes: string, nps: string, hashfull: Option<string>, tbhits: Option<string>,
                         x: string, tail: string)
    ensures CountersText(nodes, nps, hashfull, tbhits, x + tail)
         == CountersText(nodes, nps, hashfull, tbhits, x) + tail
  {
    var o := OptionalText("hashfull ", hashfull) + (OptionalText("tbhits ", tbhits) + x);
    assert o + tail == OptionalText("hashfull ", hashfull) + (OptionalText("tbhits ", tbhits) + (x + tail));
    var n := nps + (" " + o);
    assert n + tail == nps + (" " + (o + tail));
  }

  /** The score kind: the word `cp` or `mate`. */
  function ParseKind(s: string): (r: Option<(ScoreKind, string)>)
    ensures r.Some? ==> s == KindText(r.value.0) + r.value.1
  {
    if "cp" <= s then Some((Cp, s[2..]))
    else if "mate" <= s then Some((Mate, s[4..]))
    else None
  }

  /** The optional `[(upper|lower)bound ]` group: never fails, since the group may be absent. */
  function ParseBound(s: string): (r: (Option<BoundKind>, string))
    ensures s == BoundText(r.0) + r.1
  {
    if "upperbound " <= s then (Some(Upper), s[11..])
    else if "lowerbound " <= s then (Some(Lower), s[11..])
    else (None, s)
  }

  /** An optional group `name D `, present only when all of it is there. */
  function OptionalGroup(s: string, name: string): (r: Option<(string, string)>)
    ensures r.Some? ==> IsNumeral(r.value.0) && s == name + (r.value.0 + (" " + r.value.1))
  {
    var s1 :- Lit(s, name);
    var d :- Token(s1, IsDigit);
    var s2 :- Lit(d.rest, " ");
    Some((d.token, s2))
  }

  lemma AppendAssoc3(a: string, b: string, c: string, d: string)
    ensures (a + (b + c)) + d == a + (b + (c + d))
  {
  }

  /** The optional `[name D ]` stage: the group is taken only when all of it is there. */
  function ParseOptional(s: string, name: string): (r: (Option<string>, string))
    ensures s == OptionalText(name, r.0) + r.1
    ensures r.0.Some? ==> IsNumeral(r.0.value)
  {
    var g := OptionalGroup(s, name);
    if g.None? then (None, s)
    else
      var d := g.value.0;
      var rest := g.value.1;
      AppendAssoc3(name, d, " ", rest);
      (Some(d), rest)
  }

  /** The `info depth D seldepth D multipv D ` stage. */
  function ParseSearch(s: string): (r: Option<(string, string, string, string)>)
    ensures r.Some? ==> && IsNumeral(r.value.0) && IsNumeral(r.value.1) && IsNumeral(r.value.2)
                        && s == SearchText(r.value.0, r.value.1, r.value.2, r.value.3)
  {
    var s1 :- Lit(s, "info depth ");
    var depth :- Token(s1, IsDigit);
    var s2 :- Lit(depth.rest, " seldepth ");
    var seldepth :- Token(s2, IsDigit);
    var s3 :- Lit(seldepth.rest, " multipv ");
    var multipv :- Token(s3, IsDigit);
    var s4 :- Lit(multipv.rest, " ");
    Some((depth.token, seldepth.token, multipv.token, s4))
  }

  /** The `score K S [B]` stage: a kind, a score and an optional bound. */
  function ParseScore(s: string): (r: Option<(ScoreKind, string, Option<BoundKind>, string)>)
    ensures r.Some? ==> && |r.value.1| > 0 && All(r.value.1, IsScoreChar)
                        && s == ScoreText(r.value.0, r.value.1, r.value.2, r.value.3)
  {
    var s1 :- Lit(s, "score ");
    var kind :- ParseKind(s1);
    var s2 :- Lit(kind.1, " ");
    var score :- Token(s2, IsScoreChar);
    var s3 :- Lit(score.rest, " ");
    var bound := ParseBound(s3);
    Some((kind.0, score.token, bound.0, bound.1))
  }

  /** The `nodes D nps W [hashfull D ][tbhits D ]` stage. */
  function ParseCounters(s: string): (r: Option<(string, string, Option<string>, Option<string>, string)>)
    ensures r.Some? ==> && IsNumeral(r.value.0) && IsWord(r.value.1)
                        && (r.value.2.Some? ==> IsNumeral(r.value.2.value))
                        && (r.value.3.Some? ==> IsNumeral(r.value.3.value))
                        && s == CountersText(r.value.0, r.value.1, r.value.2, r.value.3, r.value.4)
  {
    var s1 :- Lit(s, "nodes ");
    var nodes :- Token(s1, IsDigit);
    var s2 :- Lit(nodes.rest, " nps ");
    var nps :- Token(s2, IsNonSpace);
    var s3 :- Lit(nps.rest, " ");
    var hashfull := ParseOptional(s3, "hashfull ");
    var tbhits := ParseOptional(hashfull.1, "tbhits ");
    Some((nodes.token, nps.token, hashfull.0, tbhits.0, tbhits.1))
  }

  /** The `time W pv P` stage: the moves run to the first line break. */
  function ParseTiming(s: string): (r: Option<(string, string, string)>)
    ensures r.Some? ==> && IsWord(r.value.0) && |r.value.1| > 0 && All(r.value.1, InLine)
                        && LineEnd(r.value.2)
                        && s == TimingText(r.value.0, r.value.1, r.value.2)
  {
    var s1 :- Lit(s, "time ");
    var time :- Token(s1, IsNonSpace);
    var s2 :- Lit(time.rest, " pv ");
    var pv :- Token(s2, InLine);
    Some((time.token, pv.token, pv.rest))
  }

  /**
   * `EVAL_REGEX.exec(s)`: the captured and skipped fields of a matching line,
   * or None. A match covers `s` up to its first line break.
   */
  function ParseInfoLine(s: string): (r: Option<InfoLine>)
    ensures r.Some? ==> WellFormed(r.value) && Format(r.value) <= s
                        && LineEnd(s[|Format(r.value)|..])
  {
    var search :- ParseSearch(s);
    var score :- ParseScore(search.3);
    var counters :- ParseCounters(score.3);
    var timing :- ParseTiming(counters.4);
    var l := InfoLine(search.0, search.1, search.2, score.0, score.1, score.2,
                      counters.0, counters.1, counters.2, counters.3, timing.0, timing.1);
    assert s == FormatOnto(l, timing.2);
    FormatThenTail(l, timing.2);
    assert s[..|Format(l)|] == Format(l);
    assert s[|Format(l)|..] == timing.2;
    Some(l)
  }

  lemma ParseKindOf(k: ScoreKind, x: string)
    ensures ParseKind(KindText(k) + x) == Some((k, x))
  {
    LitOfConcat(KindText(k), x);
    assert (KindText(k) + x)[0] == KindText(k)[0];
  }

  lemma ParseBoundOf(b: Option<BoundKind>, x: string)
    requires |x| > 0 && x[0] == 'n'
    ensures ParseBound(BoundText(b) + x) == (b, x)
  {
    LitOfConcat(BoundText(b), x);
    if b.None? {
      assert x == BoundText(b) + x;
    }
  }

  lemma ParseOptionalOf(name: string, v: Option<string>, x: string)
    requires |name| > 0 && name[|name| - 1] == ' '
    requires v.Some? ==> IsNumeral(v.value)
    requires !(name <= x)
    ensures ParseOptional(OptionalText(name, v) + x, name) == (v, x)
  {
    if v.Some? {
      var d := v.value;
      assert OptionalText(name, v) + x == name + (d + (" " + x));
      LitOfConcat(name, d + (" " + x));
      TokenOfConcat(d, " " + x, IsDigit);
      LitOfConcat(" ", x);
    } else {
      assert OptionalText(name, v) + x == x;
    }
  }

  lemma ParseSearchOf(l: InfoLine, x: string)
    requires WellFormed(l)
    ensures ParseSearch(SearchText(l.depth, l.seldepth, l.multipv, x)) == Some((l.depth, l.seldepth, l.multipv, x))
  {
    var z5 := l.multipv + (" " + x);
    var z4 := " multipv " + z5;
    var z3 := l.seldepth + z4;
    var z2 := " seldepth " + z3;
    var z1 := l.depth + z2;
    LitOfConcat("info depth ", z1);
    TokenOfConcat(l.depth, z2, IsDigit);
    LitOfConcat(" seldepth ", z3);
    TokenOfConcat(l.seldepth, z4, IsDigit);
    LitOfConcat(" multipv ", z5);
    TokenOfConcat(l.multipv, " " + x, IsDigit);
    LitOfConcat(" ", x);
  }

  lemma ParseScoreOf(l: InfoLine, x: string)
    requires WellFormed(l) && |x| > 0 && x[0] == 'n'
    ensures ParseScore(ScoreText(l.kind, l.score, l.bound, x)) == Some((l.kind, l.score, l.bound, x))
  {
    var y5 := " " + (BoundText(l.bound) + x);
    var y4 := l.score + y5;
    var y3 := " " + y4;
    LitOfConcat("score ", KindText(l.kind) + y3);
    ParseKindOf(l.kind, y3);
    LitOfConcat(" ", y4);
    TokenOfConcat(l.score, y5, IsScoreChar);
    LitOfConcat(" ", BoundText(l.bound) + x);
    ParseBoundOf(l.bound, x);
  }

  lemma ParseOptionalsOf(hashfull: Option<string>, tbhits: Option<string>, x: string)
    requires hashfull.Some? ==> IsNumeral(hashfull.value)
    requires tbhits.Some? ==> IsNumeral(tbhits.value)
    requires "time " <= x
    ensures ParseOptional(OptionalText("hashfull ", hashfull) + (OptionalText("tbhits ", tbhits) + x), "hashfull ")
            == (hashfull, OptionalText("tbhits ", tbhits) + x)
    ensures ParseOptional(OptionalText("tbhits ", tbhits) + x, "tbhits ") == (tbhits, x)
  {
    var y := OptionalText("tbhits ", tbhits) + x;
    NotPrefix("hashfull ", y, 0);
    ParseOptionalOf("hashfull ", hashfull, y);
    NotPrefix("tbhits ", x, 1);
    ParseOptionalOf("tbhits ", tbhits, x);
  }

  lemma ParseCountersOf(l: InfoLine, x: string)
    requires WellFormed(l) && "time " <= x
    ensures ParseCounters(CountersText(l.nodes, l.nps, l.hashfull, l.tbhits, x))
            == Some((l.nodes, l.nps, l.hashfull, l.tbhits, x))
  {
    var x6 := OptionalText("hashfull ", l.hashfull) + (OptionalText("tbhits ", l.tbhits) + x);
    var x5 := " " + x6;
    var x4 := l.nps + x5;
    var x3 := " nps " + x4;
    LitOfConcat("nodes ", l.nodes + x3);
    TokenOfConcat(l.nodes, x3, IsDigit);
    LitOfConcat(" nps ", x4);
    TokenOfConcat(l.nps, x5, IsNonSpace);
    LitOfConcat(" ", x6);
    ParseOptionalsOf(l.hashfull, l.tbhits, x);
  }

  lemma ParseTimingOf(l: InfoLine, tail: string)
    requires WellFormed(l) && LineEnd(tail)
    ensures ParseTiming(TimingText(l.time, l.pv, tail)) == Some((l.time, l.pv, tail))
  {
    LitOfConcat("time ", l.time + (" pv " + (l.pv + tail)));
    TokenOfConcat(l.time, " pv " + (l.pv + tail), IsNonSpace);
    LitOfConcat(" pv ", l.pv + tail);
    TokenOfConcat(l.pv, tail, InLine);
  }

  /** Every well-formed line is matched, with exactly its own fields. */
  lemma ParseFormat(l: InfoLine, tail: string)
    requires WellFormed(l) && LineEnd(tail)
    ensures ParseInfoLine(Format(l) + tail) == Some(l)
  {
    FormatThenTail(l, tail);
    var timing := TimingText(l.time, l.pv, tail);
    var counters := CountersText(l.nodes, l.nps, l.hashfull, l.tbhits, timing);
    var score := ScoreText(l.kind, l.score, l.bound, counters);
    ParseSearchOf(l, score);
    ParseScoreOf(l, counters);
    ParseCountersOf(l, timing);
    ParseTimingOf(l, tail);
  }

  /** A line matches exactly when it starts with a well-formed line that ends where it breaks. */
  lemma ParseInfoLineExactly(s: string, l: InfoLine)
    ensures ParseInfoLine(s) == Some(l) <==>
            WellFormed(l) && Format(l) <= s && LineEnd(s[|Format(l)|..])
  {
    if WellFormed(l) && Format(l) <= s && LineEnd(s[|Format(l)|..]) {
      assert s == Format(l) + s[|Format(l)|..];
      ParseFormat(l, s[|Format(l)|..]);
    }
  }

  /** A line that does not start with `info depth ` never matches; completion lines are among them. */
  lemma NonInfoLine(s: string)
    requires !("info depth " <= s)
    ensures ParseInfoLine(s) == None
  {
  }

  /** The values the client reads from a match, each through `parseInt` or `split(" ")`. */
  datatype Info = Info(
    depth: nat,
    multiPv: nat,
    kind: ScoreKind,
    povEv: Num,
    bound: Option<BoundKind>,
    nodes: nat,
    elapsedMs: Num,
    moves: seq<string>)

  /** `parseInt` of a `\d+` field: always a natural number. */
  function NumeralValue(d: string): (n: nat)
    requires IsNumeral(d)
    ensures ParseInt(d) == Int(n)
  {
    ParseIntOfDigits(d);
    DigitsValue(d, 10)
  }

  /** The field extraction of `processOutput`. */
  function Fields(l: InfoLine): (f: Info)
    requires WellFormed(l)
    ensures ParseInt(l.depth) == Int(f.depth) && ParseInt(l.multipv) == Int(f.multiPv)
    ensures ParseInt(l.nodes) == Int(f.nodes)
    ensures |f.moves| >= 1 && Join(f.moves, ' ') == l.pv
    ensures forall i :: 0 <= i < |f.moves| ==> ' ' !in f.moves[i]
  {
    Info(NumeralValue(l.depth), NumeralValue(l.multipv), l.kind, ParseInt(l.score), l.bound,
         NumeralValue(l.nodes), ParseInt(l.time), Split(l.pv, ' '))
  }

  /**
   * The score field `[-\d]+` reads as NaN exactly when it starts neither
   * with a digit nor with `-` and a digit (`-`, `--5`); whatever follows the
   * leading integer is ignored, so `-3-` reads as -3
   * (`JsText.ParseIntOfNegativeDigitPrefix`).
   */
  lemma ScoreIsNaN(t: string)
    requires |t| > 0 && All(t, IsScoreChar)
    ensures ParseInt(t).NaN? <==> !(IsDigit(t[0]) || (|t| > 1 && t[0] == '-' && IsDigit(t[1])))
  {
    assert !IsWhitespace(t[0]);
    assert Run(t, IsWhitespace) == 0;
    var u := if t[0] == '-' then t[1..] else t;
    assert !(|u| >= 2 && u[0] == '0' && (u[1] == 'x' || u[1] == 'X')) by {
      if |u| >= 2 {
        assert IsScoreChar(u[1]);
      }
    }
  }
}

=== FILE: jstext.dfy ===
/**
 * The pieces of JavaScript string handling that the client relies on: the
 * character classes of its regular expressions, maximal runs of a class,
 * `String.prototype.split` with a one-character separator, and the global
 * `parseInt` with no radix argument.
 */
module JsText {
  import opened Wrappers

  /** `\d` of a regular expression without the `u` flag. */
  predicate IsDigit(c: char) {
    '0' <= c <= '9'
  }

  /** The characters `.` does not match: the ECMAScript line terminators. */
  predicate IsLineTerminator(c: char) {
    c == '\n' || c == '\r' || c as int == 0x2028 || c as int == 0x2029
  }

  /** `\s`: ECMAScript white space and line terminators. */
  predicate IsWhitespace(c: char) {
    var n := c as int;
    n == 0x09 || n == 0x0B || n == 0x0C || n == 0x20 || n == 0xA0
    || n == 0x1680 || 0x2000 <= n <= 0x200A || n == 0x202F || n == 0x205F
    || n == 0x3000 || n == 0xFEFF || IsLineTerminator(c)
  }

  predicate All(s: string, p: char -> bool) {
    forall i :: 0 <= i < |s| ==> p(s[i])
  }

  /** Length of the longest prefix of `s` whose characters all satisfy `p`. */
  function Run(s: string, p: char -> bool): (n: nat)
    ensures n <= |s|
    ensures All(s[..n], p)
    ensures n == |s| || !p(s[n])
  {
    if |s| > 0 && p(s[0]) then
      var n := 1 + Run(s[1..], p);
      assert s[..n] == [s[0]] + s[1..][..n - 1];
      n
    else
      0
  }

  /** Any prefix of the right shape is the longest run. */
  lemma {:induction false} RunOfConcat(a: string, b: string, p: char -> bool)
    requires All(a, p)
    requires b == [] || !p(b[0])
    ensures Run(a + b, p) == |a|
    decreases |a|
  {
    if |a| == 0 {
      assert a + b == b;
    } else {
      assert (a + b)[0] == a[0];
      assert (a + b)[1..] == a[1..] + b;
      RunOfConcat(a[1..], b, p);
    }
  }

  /** A token and what follows it. */
  datatype Scan = Scan(token: string, rest: string)

  /**
   * A greedy `X+` of a regular expression: the maximal non-empty run of
   * characters of class `p` at the start of `s`.
   */
  function Token(s: string, p: char -> bool): (r: Option<Scan>)
    ensures r.None? <==> |s| == 0 || !p(s[0])
    ensures r.Some? ==> && s == r.value.token + r.value.rest
                        && |r.value.token| > 0
                        && All(r.value.token, p)
                        && (r.value.rest == [] || !p(r.value.rest[0]))
  {
    var n := Run(s, p);
    if n == 0 then None else Some(Scan(s[..n], s[n..]))
  }

  lemma TokenOfConcat(a: string, b: string, p: char -> bool)
    requires |a| > 0 && All(a, p)
    requires b == [] || !p(b[0])
    ensures Token(a + b, p) == Some(Scan(a, b))
  {
    RunOfConcat(a, b, p);
    assert (a + b)[..|a|] == a;
    assert (a + b)[|a|..] == b;
  }

  /** A literal word of a regular expression: what follows `w` when `s` starts with it. */
  function Lit(s: string, w: string): (r: Option<string>)
    ensures r.Some? <==> w <= s
    ensures r.Some? ==> s == w + r.value
  {
    if w <= s then
      assert s == s[..|w|] + s[|w|..];
      Some(s[|w|..])
    else
      None
  }

  /** A word is not a prefix of a string that differs from it somewhere. */
  lemma NotPrefix(w: string, s: string, i: nat)
    requires i < |w| && i < |s| && w[i] != s[i]
    ensures !(w <= s)
  {
  }

  lemma LitOfConcat(w: string, b: string)
    ensures Lit(w + b, w) == Some(b)
  {
    assert (w + b)[..|w|] == w;
  }

  /** Joins the parts with `sep` between neighbours, as `Array.prototype.join`. */
  function Join(parts: seq<string>, sep: char): string
  {
    if |parts| == 0 then ""
    else if |parts| == 1 then parts[0]
    else parts[0] + [sep] + Join(parts[1..], sep)
  }

  /**
   * `s.split(sep)` for a one-character separator: the maximal pieces between
   * separators, empty pieces included, so `s` always yields at least one part.
   */
  function Split(s: string, sep: char): (parts: seq<string>)
    ensures |parts| >= 1
    ensures forall i :: 0 <= i < |parts| ==> sep !in parts[i]
    ensures Join(parts, sep) == s
    decreases |s|
  {
    var n := Run(s, c => c != sep);
    if n == |s| then
      assert s[..n] == s;
      [s]
    else
      var tail := Split(s[n + 1..], sep);
      assert s == s[..n] + [sep] + s[n + 1..];
      [s[..n]] + tail
  }

  /** A piece without the separator, the separator, then more text. */
  lemma SplitAtFirst(a: string, sep: char, rest: string)
    requires sep !in a
    ensures Split(a + [sep] + rest, sep) == [a] + Split(rest, sep)
  {
    var s := a + [sep] + rest;
    var p := c => c != sep;
    assert All(a, p);
    assert s == a + ([sep] + rest);
    RunOfConcat(a, [sep] + rest, p);
    assert s[..|a|] == a;
    assert s[|a| + 1..] == rest;
  }

  /** Splitting undoes joining pieces that do not contain the separator. */
  lemma {:induction false} SplitJoin(parts: seq<string>, sep: char)
    requires |parts| >= 1
    requires forall i :: 0 <= i < |parts| ==> sep !in parts[i]
    ensures Split(Join(parts, sep), sep) == parts
    decreases |parts|
  {
    if |parts| == 1 {
      var p := c => c != sep;
      assert All(parts[0], p);
      RunOfConcat(parts[0], [], p);
      assert parts[0] + [] == parts[0];
    } else {
      SplitAtFirst(parts[0], sep, Join(parts[1..], sep));
      SplitJoin(parts[1..], sep);
      assert parts == [parts[0]] + parts[1..];
    }
  }

  /** A JavaScript number as `parseInt` can produce it: an integer or NaN. */
  datatype Num = Int(value: int) | NaN

  /** `-x` on numbers: NaN stays NaN. */
  function Negate(x: Num): (r: Num)
    ensures r.NaN? <==> x.NaN?
    ensures r.Int? ==> r.value + x.value == 0
  {
    match x
    case Int(v) => Int(-v)
    case NaN => NaN
  }

  /** The digit value `parseInt` gives a character, or 36 for a non-digit. */
  function DigitValue(c: char): (d: nat)
    ensures d <= 36
    ensures IsDigit(c) <==> d < 10
  {
    if '0' <= c <= '9' then c as int - '0' as int
    else if 'a' <= c <= 'z' then c as int - 'a' as int + 10
    else if 'A' <= c <= 'Z' then c as int - 'A' as int + 10
    else 36
  }

  /** The characters that are digits of the given radix. */
  function RadixDigit(radix: nat): char -> bool {
    c => DigitValue(c) < radix
  }

  /** The value of a string of digits in the given radix, most significant first. */
  function DigitsValue(ds: string, radix: nat): nat
  {
    if |ds| == 0 then 0
    else DigitsValue(ds[..|ds| - 1], radix) * radix + DigitValue(ds[|ds| - 1])
  }

  /** Some character of `s` is a decimal digit. */
  predicate HasDigit(s: string)
    decreases |s|
  {
    |s| > 0 && (IsDigit(s[0]) || HasDigit(s[1..]))
  }

  /** A digit in a suffix is a digit of the whole text. */
  lemma {:induction false} HasDigitOfSuffix(s: string, k: nat)
    requires k <= |s|
    ensures HasDigit(s[k..]) ==> HasDigit(s)
    decreases k
  {
    if k > 0 {
      assert s[1..][k - 1..] == s[k..];
      HasDigitOfSuffix(s[1..], k - 1);
    }
  }

  /**
   * `parseInt(s)` with no radix: skip leading white space, take one optional
   * sign, then read the magnitude.
   */
  function ParseInt(s: string): Num
  {
    ParseSigned(s[Run(s, IsWhitespace)..])
  }

  /** A text with no decimal digit at all reads as NaN, whatever its signs, spaces or `0x`. */
  lemma ParseIntNoDigit(s: string)
    ensures !HasDigit(s) ==> ParseInt(s).NaN?
  {
    var n := Run(s, IsWhitespace);
    HasDigitOfSuffix(s, n);
    var t := s[n..];
    if !HasDigit(s) {
      if |t| > 0 && (t[0] == '-' || t[0] == '+') {
        assert !HasDigit(t[1..]);
        MagnitudeNoDigit(t[1..]);
      } else {
        MagnitudeNoDigit(t);
      }
    }
  }

  /** The magnitude of a text with no decimal digit is NaN. */
  lemma MagnitudeNoDigit(u: string)
    requires !HasDigit(u)
    ensures ParseMagnitude(u).NaN?
  {
    if |u| > 0 {
      assert !IsDigit(u[0]);
      assert !RadixDigit(10)(u[0]);
    }
  }

  /** One optional sign, then the magnitude. */
  function ParseSigned(t: string): Num
  {
    if |t| > 0 && t[0] == '-' then Negate(ParseMagnitude(t[1..]))
    else if |t| > 0 && t[0] == '+' then ParseMagnitude(t[1..])
    else ParseMagnitude(t)
  }

  /** A `0x`/`0X` prefix selects radix 16, anything else radix 10. */
  function ParseMagnitude(u: string): Num
  {
    if |u| >= 2 && u[0] == '0' && (u[1] == 'x' || u[1] == 'X') then ParseDigits(u[2..], 16)
    else ParseDigits(u, 10)
  }

  /** The value of the longest prefix of digits of the radix; NaN when there is none. */
  function ParseDigits(body: string, radix: nat): Num
  {
    var n := Run(body, RadixDigit(radix));
    if n == 0 then NaN else Int(DigitsValue(body[..n], radix))
  }

  /** A greedy run over a prefix of the class carries on into what follows. */
  lemma {:induction false} RunAppend(a: string, b: string, p: char -> bool)
    requires All(a, p)
    ensures Run(a + b, p) == |a| + Run(b, p)
    decreases |a|
  {
    if |a| > 0 {
      assert (a + b)[0] == a[0];
      assert (a + b)[1..] == a[1..] + b;
      RunAppend(a[1..], b, p);
    } else {
      assert a + b == b;
    }
  }

  /** `parseInt` ignores leading white space. */
  lemma ParseIntSkipsWhitespace(w: string, s: string)
    requires All(w, IsWhitespace)
    ensures ParseInt(w + s) == ParseInt(s)
  {
    WhitespaceSuffix(w, s);
    ParseIntUnfold(w + s);
    ParseIntUnfold(s);
  }

  /** Leading white space in front of `s` leaves the same text once skipped. */
  lemma WhitespaceSuffix(w: string, s: string)
    requires All(w, IsWhitespace)
    ensures (w + s)[Run(w + s, IsWhitespace)..] == s[Run(s, IsWhitespace)..]
  {
    var n := Run(s, IsWhitespace);
    var ws := w + s;
    RunAppend(w, s, IsWhitespace);
    assert ws[|w|..] == s;
    assert ws[|w| + n..] == ws[|w|..][n..];
  }

  /** `parseInt` reads what is left after the leading white space. */
  lemma ParseIntUnfold(s: string)
    ensures ParseInt(s) == ParseSigned(s[Run(s, IsWhitespace)..])
  {
  }

  /** A leading `-` negates what the same text with `+` reads, NaN staying NaN. */
  lemma ParseIntSign(s: string)
    ensures ParseInt("-" + s) == Negate(ParseInt("+" + s))
  {
    assert ("-" + s)[0] == '-' && ("+" + s)[0] == '+';
    assert ("-" + s)[1..] == s && ("+" + s)[1..] == s;
  }

  /** The shortest decimal spelling of a natural number. */
  function NatString(n: nat): (s: string)
    ensures |s| > 0 && All(s, IsDigit)
    ensures DigitsValue(s, 10) == n
    ensures |s| == 1 || s[0] != '0'
  {
    var last := ['0' + (n % 10) as char];
    if n < 10 then last
    else
      var s := NatString(n / 10) + last;
      assert s[..|s| - 1] == NatString(n / 10);
      s
  }

  /** The decimal spelling of an integer, with `-` in front of a negative one. */
  function IntString(v: int): string
  {
    if v < 0 then "-" + NatString(-v) else NatString(v)
  }

  /** `parseInt` reads a run of decimal digits as its decimal value. */
  lemma ParseIntOfDigits(ds: string)
    requires |ds| > 0 && All(ds, IsDigit)
    ensures ParseInt(ds) == Int(DigitsValue(ds, 10))
  {
    assert !IsWhitespace(ds[0]);
    assert Run(ds, IsWhitespace) == 0;
    DecimalDigits(ds);
  }

  /** A text starting with a digit has no white space or sign to skip. */
  lemma ParseIntOfDigitStart(t: string)
    requires |t| > 0 && IsDigit(t[0])
    ensures ParseInt(t) == ParseMagnitude(t)
  {
    assert !IsWhitespace(t[0]);
    assert Run(t, IsWhitespace) == 0;
    assert t[0..] == t;
  }

  /** The longest prefix in a digit class is read, whatever follows it. */
  lemma ParseDigitsOfPrefix(ds: string, rest: string, radix: nat)
    requires |ds| > 0 && All(ds, RadixDigit(radix))
    requires rest == [] || !RadixDigit(radix)(rest[0])
    ensures ParseDigits(ds + rest, radix) == Int(DigitsValue(ds, radix))
  {
    RunOfConcat(ds, rest, RadixDigit(radix));
    assert (ds + rest)[..|ds|] == ds;
  }

  /**
   * `parseInt` reads the longest decimal digit prefix and ignores what
   * follows it, unless the text is a `0x` prefix: `100ms` reads as 100.
   */
  lemma ParseIntOfDigitPrefix(ds: string, rest: string)
    requires |ds| > 0 && All(ds, IsDigit)
    requires rest == [] || !IsDigit(rest[0])
    requires !(ds == "0" && |rest| > 0 && (rest[0] == 'x' || rest[0] == 'X'))
    ensures ParseInt(ds + rest) == Int(DigitsValue(ds, 10))
  {
    assert (ds + rest)[0] == ds[0];
    ParseIntOfDigitStart(ds + rest);
    MagnitudeOfDigitPrefix(ds, rest);
  }

  /** The magnitude of a decimal digit prefix, when it is not a `0x` prefix. */
  lemma MagnitudeOfDigitPrefix(ds: string, rest: string)
    requires |ds| > 0 && All(ds, IsDigit)
    requires rest == [] || !IsDigit(rest[0])
    requires !(ds == "0" && |rest| > 0 && (rest[0] == 'x' || rest[0] == 'X'))
    ensures ParseMagnitude(ds + rest) == Int(DigitsValue(ds, 10))
  {
    var t := ds + rest;
    assert !(|t| >= 2 && t[0] == '0' && (t[1] == 'x' || t[1] == 'X')) by {
      if |ds| >= 2 {
        assert t[0] == ds[0] && t[1] == ds[1];
      } else if |t| >= 2 {
        assert ds == [t[0]] && rest[0] == t[1];
      }
    }
    assert ParseMagnitude(t) == ParseDigits(t, 10);
    assert All(ds, RadixDigit(10));
    ParseDigitsOfPrefix(ds, rest, 10);
  }

  /** With a leading `-`, the digit prefix is read negated: `-3-` reads as -3. */
  lemma ParseIntOfNegativeDigitPrefix(ds: string, rest: string)
    requires |ds| > 0 && All(ds, IsDigit)
    requires rest == [] || !IsDigit(rest[0])
    requires !(ds == "0" && |rest| > 0 && (rest[0] == 'x' || rest[0] == 'X'))
    ensures ParseInt("-" + (ds + rest)) == Int(-(DigitsValue(ds, 10) as int))
  {
    ParseIntOfMinus(ds + rest);
    MagnitudeOfDigitPrefix(ds, rest);
  }

  /** A leading `-` negates the magnitude that follows it. */
  lemma ParseIntOfMinus(u: string)
    ensures ParseInt("-" + u) == Negate(ParseMagnitude(u))
  {
    var t := "-" + u;
    assert t[0] == '-' && !IsWhitespace(t[0]);
    assert Run(t, IsWhitespace) == 0;
    assert t[0..] == t && t[1..] == u;
  }

  /** After a `0x` or `0X` prefix, `parseInt` reads the longest hexadecimal digit prefix: `0x1f` reads as 31. */
  lemma ParseIntOfHex(x: char, ds: string, rest: string)
    requires x == 'x' || x == 'X'
    requires |ds| > 0 && All(ds, RadixDigit(16))
    requires rest == [] || DigitValue(rest[0]) >= 16
    ensures ParseInt(['0', x] + ds + rest) == Int(DigitsValue(ds, 16))
  {
    var u := ds + rest;
    var t := ['0', x] + u;
    assert ['0', x] + ds + rest == t;
    assert t[0] == '0';
    ParseIntOfDigitStart(t);
    HexMagnitude(x, u);
    ParseDigitsOfPrefix(ds, rest, 16);
  }

  /** A `0x` or `0X` prefix selects radix 16 for what follows it. */
  lemma HexMagnitude(x: char, u: string)
    requires x == 'x' || x == 'X'
    ensures ParseMagnitude(['0', x] + u) == ParseDigits(u, 16)
  {
    var t := ['0', x] + u;
    assert t[0] == '0' && t[1] == x;
    assert t[2..] == u;
  }

  /** A run of decimal digits is read whole, in radix 10. */
  lemma DecimalDigits(ds: string)
    requires |ds| > 0 && All(ds, IsDigit)
    ensures ParseMagnitude(ds) == Int(DigitsValue(ds, 10))
  {
    var p := RadixDigit(10);
    assert All(ds, p);
    RunOfConcat(ds, [], p);
    assert ds + [] == ds;
  }

  /** `parseInt` reads back every integer written in decimal. */
  lemma ParseIntOfIntString(v: int)
    ensures ParseInt(IntString(v)) == Int(v)
  {
    if v < 0 {
      var s := IntString(v);
      assert !IsWhitespace(s[0]);
      assert Run(s, IsWhitespace) == 0;
      assert s[1..] == NatString(-v);
      DecimalDigits(NatString(-v));
    } else {
      ParseIntOfDigits(NatString(v));
    }
  }
}

=== FILE: wrappers.dfy ===
/** Failure-compatible optional values, usable with `:-`. */
module Wrappers {

  datatype Option<+T> = None | Some(value: T) {

    predicate IsFailure() {
      None?
    }

    function PropagateFailure<U>(): Option<U>
      requires None?
    {
      None
    }

    function Extract(): T
      requires Some?
    {
      value
    }
  }
}
